=== FILE: README.md ===
# AI background fusion: a Dafny model of the wizard and its two API routes

This project models the logic of a small web application. A user uploads a photo, the server removes its background, a text-to-image API generates a new background, and the server composites the cutout onto it. Three pieces are modelled:

- **The wizard on the home page** (`app/page.js`). Its state is `step` (1 to 4), the URL fields, the prompt, the background candidates, the error text and three busy flags. Each asynchronous handler is split at its `await`: a *start* runs the guard and the setters before the request, and a *finish* runs the setters after the reply. The transitions are functions on a `UiState` value. The `HomePage` class holds the same fields, and each of its methods is proved to perform exactly one transition. Every method keeps `step` between 1 and 4. A session in which each handler runs to completion stays *settled*: nothing is in flight, step 2 onward has a cutout URL, and step 4 has a fused URL. The session lemma assumes the routes put the URL in every successful reply.
- **The background-removal route** (`app/api/matting/route.js`). The retry helper is a method with a loop over an abstract sequence of attempt outcomes. The `POST` handler is a method with the handler's early returns. It reports how many removal calls were made, which copy was sent (original or downscaled), and the canvas size of the composed cutout.
- **The generation-and-fusion route** (`app/api/ai-fuse/route.js`). `roundTo64` is done in integer arithmetic. For an integer `n`, `Math.round(n / 64)` equals `floor((n + 32) / 64)`. The handler is a pure function from the request body and the upstream outcomes to a response and the ordered list of upstream calls it makes.

How each upstream call turns out is an input: `fetch`, the object-store upload, the removal and text-to-image APIs, and sharp's decoding and pixel work. Error messages and constants are copied verbatim from the code.

The two routes answer only with status 200, 400 or 500. Only the call to the removal API is retried. Generation is a single synchronous call with no job polling. The prompt is expanded only by appending a fixed suffix, and fusion tints the cutout and composites it over the resized background with sharp's default `over` compositing and no other blend mode.

## Model

| member | source | states |
|---|---|---|
| `MattingRoute.FirstFinal` | app/api/matting/route.js:19-21 | The index it returns is the first *final* attempt: a response whose status is 2xx (`IsOk`) or 4xx (`IsClientError`). No earlier attempt is final. It returns the length when no attempt is final. |
| `MattingRoute.FetchWithRetry` | app/api/matting/route.js:13-31 | Makes at most `retries` calls. It returns the first 2xx or 4xx response and makes no later call. A delay follows every earlier attempt. It rethrows a network error only when that error is on the last attempt, and then without a delay. Otherwise it throws after `retries` calls and `retries` delays. With `retries = 0` it makes no call and throws. |
| `MattingRoute.Post` | app/api/matting/route.js:33-143 | 400 with the no-file message exactly when the form has no file. An unreadable form, or an original that uploads but is not an image, gives the generic 500 before any removal call. A failed original upload gives its own 500, and the removal API is never called. The copy is downscaled exactly when a side exceeds 1280 (`NeedsDownscale`). At most 3 removal calls. A non-2xx final response gives 500 with the removal prefix and its status text. When all attempts fail, the answer is the generic 500. After a 2xx response: a body without an image gives the generic 500, a failed composition gives the composition message, a failed upload of the result gives its own 500, and otherwise the answer is success. Success happens only when every step succeeded; it returns both URLs, and the canvas has the original image's size. Every other answer is 400 or 500. |
| `AiFuseRoute.RoundTo64` | app/api/ai-fuse/route.js:52 | The result is at least 64 and a multiple of 64. It is 64 for every n < 32. For n ≥ 32 it lies in (n − 32, n + 32]. |
| `AiFuseRoute.RoundTo64IsNearest` | app/api/ai-fuse/route.js:52 | For n ≥ 32, no multiple of 64 is closer to n. On a tie it picks the larger multiple, so halves round up. |
| `AiFuseRoute.RoundTo64Fixes` | app/api/ai-fuse/route.js:52 | Every multiple of 64 that is at least 64 is returned unchanged. |
| `AiFuseRoute.RoundTo64Idempotent` | app/api/ai-fuse/route.js:52 | Rounding twice gives the same result as rounding once. |
| `AiFuseRoute.TargetSize` | app/api/ai-fuse/route.js:51-54 | Each requested side is the rounding of the same side of the cutout: a multiple of 64, at least 64, 64 for a side under 32, and otherwise within (side − 32, side + 32]. |
| `AiFuseRoute.EnhancedPrompt` | app/api/ai-fuse/route.js:40 | The user's prompt is a prefix, followed by exactly the fixed quality suffix. |
| `AiFuseRoute.GenerateBackground` | app/api/ai-fuse/route.js:39-84 | The cutout is downloaded first. Success happens exactly when the download, decoding, generation and upload all succeed, and it returns exactly one URL, the stored one. The generator gets the enhanced prompt and the rounded cutout size. When the cutout downloads and decodes, the second call is always the generation, with the enhanced prompt and the cutout size rounded by `TargetSize`; otherwise the download is the only call. The result is stored exactly when the generation succeeded. A failed download or generation maps to its own 500. An unreachable cutout or generator, a cutout that is not an image and a failed upload give the generic 500. Every failure is 500. |
| `AiFuseRoute.FuseImage` | app/api/ai-fuse/route.js:92-140 | Both images are downloaded first. If either download is not ok, the answer is 500 with the download message. An unreachable download, and any failure after both downloads succeeded, give the generic 500. Success happens exactly when every step succeeds, and it returns the stored URL. Unless both downloads are ok and the cutout decodes, the two downloads are the only calls; otherwise the background is resized, and the result is stored exactly when the pixel work succeeded. Only the background is resized, and only to the cutout's own size, which is also the fused image's size. Every failure is 500. |
| `AiFuseRoute.Handle` | app/api/ai-fuse/route.js:29-149 | 400 exactly for the requests `Rejected` names: a generation with an empty prompt or cutout URL, a fusion with an empty cutout or background URL, and any other action. Each of the three cases has its own message, and a 400 is decided before any upstream call. A valid generation is answered by `GenerateBackground`, a valid fusion by `FuseImage`. A body that does not parse gives the generic 500. Otherwise the answer is 200, 400 or 500. |
| `Wizard.UploadStarted` | app/page.js:41-46 | Clears `error`. Without a file nothing else changes. With a file, `uploading` is set. |
| `Wizard.UploadFinished` | app/page.js:50-67 | Success stores `mattingUrl` and `originalUrl` (defaulting to "") and sets step 2. Failure stores the message (`FailureMessage`: the body's error, else the default text) and sets step 1. `uploading` is false afterwards, and no other field changes. |
| `Wizard.GenerateBgStarted` | app/page.js:71-83 | A no-op unless `CanGenerate` holds: step is 2 or 3, the cutout URL and prompt are non-empty, and no generation is running. Otherwise it clears error, candidates and selection, sets `bgLoading`, and sets step 2. |
| `Wizard.GenerateBgRequest` | app/page.js:73-90 | A request is sent exactly when the guard holds. It carries the prompt and cutout URL, and it always passes the route's parameter check. |
| `Wizard.GenerateBgFinished` | app/page.js:91-102 | Success stores the returned list (or [] when absent) and sets step 3. Failure stores the message (`FailureMessage`) and sets step 2. `bgLoading` is false afterwards, and no other field changes. |
| `Wizard.FuseStarted` | app/page.js:106-109 | A no-op unless `CanFuse` holds: step is 3, a background is selected and no fusion is running. Otherwise it clears `error` and sets `fusing`. |
| `Wizard.FuseRequest` | app/page.js:107-119 | A request is sent exactly when the guard holds. It carries the cutout URL and the selected background. In a settled state it always passes the route's check. |
| `Wizard.FuseFinished` | app/page.js:120-131 | Success stores `fusedUrl` and sets step 4. Failure stores the message (`FailureMessage`) and keeps step 3. `fusing` is false afterwards, and no other field changes. |
| `Wizard.DownloadLink` | app/page.js:135-138 | There is no link exactly when `fusedUrl` is empty. Otherwise the link is `fusedUrl`. |
| `Wizard.Restarted` | app/page.js:146-155 | Sets step 1 and empties the three URLs, the prompt, the candidates, the selection and the error. It keeps the user and the three busy flags. |
| `Wizard.Perform` | app/page.js:41-155 | Running one handler to completion from a settled state leaves the state settled, provided the route's reply keeps its contract. |
| `Wizard.SessionStaysSettled` | app/page.js:9-155 | Any session of complete handler runs from a settled state stays settled. Step stays within 1 to 4, every fusion request passes the route's check, and at step 4 the download always has a link. |
| `Wizard.InitialSettled` | app/page.js:9-21 | The page mounts at step 1 in a settled state. |
| `Wizard.HomePage.constructor` | app/page.js:9-21 | The fields start as the component's initial state. |
| `Wizard.HomePage.StartUpload` | app/page.js:41-49 | Performs `UploadStarted` on the fields and keeps step within 1 to 4. |
| `Wizard.HomePage.FinishUpload` | app/page.js:50-67 | Performs `UploadFinished` on the fields and keeps step within 1 to 4. |
| `Wizard.HomePage.StartGenerateBg` | app/page.js:71-90 | Performs `GenerateBgStarted` and returns the request that `GenerateBgRequest` describes. |
| `Wizard.HomePage.FinishGenerateBg` | app/page.js:91-102 | Performs `GenerateBgFinished` on the fields. |
| `Wizard.HomePage.StartFuse` | app/page.js:106-119 | Performs `FuseStarted` and returns the request that `FuseRequest` describes. |
| `Wizard.HomePage.FinishFuse` | app/page.js:120-131 | Performs `FuseFinished` on the fields. |
| `Wizard.HomePage.Download` | app/page.js:135-136 | Changes nothing. Yields `DownloadLink` of the state: no link exactly when `fusedUrl` is empty. |
| `Wizard.HomePage.Restart` | app/page.js:146-155 | Performs `Restarted` on the fields. |
| `Wizard.HomePage.EditPrompt` | app/page.js:211 | Performs `PromptEdited`: sets `bgPrompt` to the typed text and changes nothing else. |
| `Wizard.HomePage.SelectBackground` | app/page.js:244 | Performs `BackgroundSelected`: sets `selectedBg` to the clicked URL and changes nothing else. |

## Left out

- All pixel work of sharp is left out: the `inside` and `cover` resizes, metadata, dominant-colour statistics, tint, composite and PNG encoding. An image is its size, and each pixel step is an input flag saying whether it succeeded.
- `MattingRoute.Post`: the downscaling resize of an oversized copy always succeeds. The size it produces is not modelled, only the choice between the original bytes and a downscaled copy.
- Network and storage are inputs: `fetch`, the object-store upload and public-URL lookup (including `uploadImageToSupabase`), and the UUID file names. The body of the removal response is one input, `Cutout` or `NoImage`. An exception while reading the request's form or JSON body, while decoding the removal API's base64 image, or in a rejected `fetch` gives the generic 500, because the handlers' `catch` blocks give it.
- `MattingRoute.Post` and `AiFuseRoute.GenerateBackground`: reading the error body of a failed removal or generation response (`app/api/matting/route.js:82`, `app/api/ai-fuse/route.js:73`) is assumed not to throw, so the model always answers with the removal or generation message there. If that read threw, the code would answer with the generic 500 instead.
- `MattingRoute.FetchWithRetry`: the 1500 ms delay length and the console logging are left out. Delays are counted, not timed. The attempt sequence must list an outcome for each of the `retries` possible calls.
- React and the DOM are left out: rendering, the `disabled` attributes on buttons and the file input, and which candidates are rendered as clickable. The `useEffect` login check and redirect are also out, so the model never changes `user`. So are the anchor element and click of the download handler; only its guard is kept.
- Overlapping handler runs are not analysed as interleavings. The class methods keep `step` within 1 to 4 under any order of start and finish calls. The settled-session property is proved only for handlers that run one at a time.
- `AiFuseRoute.Handle`: a body that is valid JSON but not an object (an array, a number, a string, a boolean) is a request with every field missing, so it gets the invalid-action 400; only a body that does not parse, or `null`, gives the generic 500.
- `Wizard.UploadFinished`, `Wizard.GenerateBgFinished`, `Wizard.FuseFinished`: a reply whose whole JSON body is `null` is not modelled. The page would throw a TypeError on reading its fields, and that error's message would become `error`. Every body is modelled as an object whose fields may be missing, because the routes never answer `null`.
- JSON values that are neither strings nor missing (numbers, objects) are not modelled for request and reply fields. A URL field that the page sets from a missing reply field holds "".
- `app/login/page.js`, `app/logout/page.js` and `app/layout.js` are not part of this model.

=== FILE: ai_fuse.dfy ===
/** The generation-and-fusion route (`POST /api/ai-fuse`): request
    validation, sizing of the generated background, the prompt template and
    the mapping of upstream failures to responses. The route keeps no state,
    so the handler is a function of the request body and of how each
    upstream call turns out. */
module AiFuseRoute {
  import opened Shared

  const ActionGenerate := "generate-background"
  const ActionFuse := "fuse-image"

  /** Appended to every user prompt before it goes to the text-to-image API. */
  const QualitySuffix := ", masterpiece, best quality, ultra-detailed, photorealistic, 8k, sharp focus"

  const MsgMissingPrompt := "缺少prompt或抠图URL参数"
  const MsgCutoutDownload := "无法下载抠图以获取尺寸"
  const MsgGeneration := "背景生成失败，请检查提示词或联系支持"
  const MsgMissingFuseUrls := "缺少抠图或背景图URL参数"
  const MsgFuseDownload := "无法下载用于融合的图片"
  const MsgInvalidAction := "无效的操作"
  const MsgInternal := "服务器内部错误"

  // ---------------------------------------------------------------------
  // Sizing and prompt
  // ---------------------------------------------------------------------

  predicate MultipleOf64(m: int) {
    m % 64 == 0
  }

  /** `Math.max(64, Math.round(n / 64) * 64)`. For an integer `n`,
      `Math.round(n / 64)` is `floor((n + 32) / 64)`: halves round up. */
  function RoundTo64(n: int): (r: int)
    ensures r >= 64 && MultipleOf64(r)
    ensures n < 32 ==> r == 64
    ensures n >= 32 ==> n - 32 < r <= n + 32
  {
    var nearest := (n + 32) / 64 * 64;
    if nearest < 64 then 64 else nearest
  }

  function Abs(x: int): nat {
    if x < 0 then -x else x
  }

  /** For n >= 32 no multiple of 64 is closer to n than RoundTo64(n), and a
      tie (n 32 past a multiple) goes to the larger multiple. */
  lemma RoundTo64IsNearest(n: int, m: int)
    requires n >= 32 && MultipleOf64(m)
    ensures Abs(RoundTo64(n) - n) <= Abs(m - n)
    ensures Abs(RoundTo64(n) - n) == Abs(m - n) ==> m <= RoundTo64(n)
  {
  }

  /** Every multiple of 64 from 64 up is left as it is. */
  lemma RoundTo64Fixes(n: int)
    requires n >= 64 && MultipleOf64(n)
    ensures RoundTo64(n) == n
  {
  }

  /** Rounding twice is rounding once. */
  lemma RoundTo64Idempotent(n: int)
    ensures RoundTo64(RoundTo64(n)) == RoundTo64(n)
  {
  }

  /** The size requested from the text-to-image API for a cutout of size `s`. */
  function TargetSize(s: Size): (t: Size)
    ensures t.width >= 64 && MultipleOf64(t.width)
    ensures t.height >= 64 && MultipleOf64(t.height)
    ensures s.width < 32 ==> t.width == 64
    ensures s.width >= 32 ==> s.width - 32 < t.width <= s.width + 32
    ensures s.height < 32 ==> t.height == 64
    ensures s.height >= 32 ==> s.height - 32 < t.height <= s.height + 32
  {
    Size(RoundTo64(s.width), RoundTo64(s.height))
  }

  /** The user's prompt followed by the fixed quality suffix. */
  function EnhancedPrompt(prompt: string): (r: string)
    ensures |r| == |prompt| + |QualitySuffix|
    ensures prompt <= r
    ensures r[|prompt|..] == QualitySuffix
  {
    prompt + QualitySuffix
  }

  // ---------------------------------------------------------------------
  // The POST handler
  // ---------------------------------------------------------------------

  /** The JSON body's fields; a missing field is None. */
  datatype Request = Request(action: Option<string>, prompt: Option<string>, mattingUrl: Option<string>, backgroundUrl: Option<string>)

  /** A `fetch`: it throws, or it yields a response whose `ok` is given. */
  datatype Fetched = Unreachable | Reached(ok: bool)

  /** How each upstream call of the handler turns out. */
  datatype Upstream = Upstream(
    cutout: Fetched,            // GET mattingUrl
    cutoutSize: Option<Size>,   // size sharp reads from the cutout (None: not an image)
    background: Fetched,        // GET backgroundUrl
    generator: Fetched,         // POST to the text-to-image API
    pixelWorkOk: bool,          // resize, colour statistics, tint and composite of a fusion
    store: Stored)              // upload of the produced PNG

  /** The upstream calls a request causes, in order. */
  datatype Call =
    | Download(url: string)
    | Generate(prompt: string, size: Size)
    | ResizeBackground(size: Size)
    | StoreBackground
    | StoreFused(size: Size)

  datatype Response = Backgrounds(urls: seq<string>) | Fused(fusedUrl: string) | Failure(status: int, message: string)

  datatype Handled = Handled(response: Response, calls: seq<Call>)

  predicate IsStatus(r: Response, status: int) {
    r.Failure? && r.status == status
  }

  /** The requests answered with 400: a generation without a prompt or a
      cutout URL, a fusion without a cutout or a background URL, and every
      other action. */
  predicate Rejected(req: Request) {
    if req.action == Some(ActionGenerate) then !Truthy(req.prompt) || !Truthy(req.mattingUrl)
    else if req.action == Some(ActionFuse) then !Truthy(req.mattingUrl) || !Truthy(req.backgroundUrl)
    else true
  }

  /** The `generate-background` action once its fields are present. */
  function GenerateBackground(prompt: string, mattingUrl: string, up: Upstream): (h: Handled)
    ensures |h.calls| >= 1 && h.calls[0] == Download(mattingUrl)
    ensures h.response.Failure? ==> h.response.status == 500
    ensures h.response.Backgrounds? <==>
      up.cutout == Reached(true) && up.cutoutSize.Some? && up.generator == Reached(true) && up.store.Stored?
    ensures h.response.Backgrounds? ==> h.response.urls == [up.store.publicUrl]
    ensures up.cutout == Reached(false) ==> h == Handled(Failure(500, MsgCutoutDownload), [Download(mattingUrl)])
    ensures up.cutout == Reached(true) && up.cutoutSize.Some? && up.generator == Reached(false) ==>
      h.response == Failure(500, MsgGeneration)
    ensures up.cutout.Unreachable? ==> h.response == Failure(500, MsgInternal)
    ensures up.cutout == Reached(true) && up.cutoutSize.None? ==> h.response == Failure(500, MsgInternal)
    ensures up.cutout == Reached(true) && up.cutoutSize.Some? && up.generator.Unreachable? ==>
      h.response == Failure(500, MsgInternal)
    ensures up.cutout == Reached(true) && up.cutoutSize.Some? && up.generator == Reached(true) && up.store.StoreFailed? ==>
      h.response == Failure(500, MsgInternal)
    ensures up.cutout == Reached(true) && up.cutoutSize.Some? ==>
      |h.calls| >= 2 && h.calls[1] == Generate(EnhancedPrompt(prompt), TargetSize(up.cutoutSize.value))
    ensures forall c | c in h.calls && c.Generate? ::
      up.cutoutSize.Some? && c == Generate(EnhancedPrompt(prompt), TargetSize(up.cutoutSize.value))
    ensures !(up.cutout == Reached(true) && up.cutoutSize.Some?) ==> h.calls == [Download(mattingUrl)]
    ensures StoreBackground in h.calls <==>
      up.cutout == Reached(true) && up.cutoutSize.Some? && up.generator == Reached(true)
    ensures forall c | c in h.calls :: !c.ResizeBackground? && !c.StoreFused?
  {
    var download := [Download(mattingUrl)];
    match up.cutout
    case Unreachable => Handled(Failure(500, MsgInternal), download)
    case Reached(ok) =>
      if !ok then Handled(Failure(500, MsgCutoutDownload), download)
      else if up.cutoutSize.None? then Handled(Failure(500, MsgInternal), download)
      else
        var calls := download + [Generate(EnhancedPrompt(prompt), TargetSize(up.cutoutSize.value))];
        match up.generator
        case Unreachable => Handled(Failure(500, MsgInternal), calls)
        case Reached(generated) =>
          if !generated then Handled(Failure(500, MsgGeneration), calls)
          else
            match up.store
            case StoreFailed => Handled(Failure(500, MsgInternal), calls + [StoreBackground])
            case Stored(url) => Handled(Backgrounds([url]), calls + [StoreBackground])
  }

  /** The `fuse-image` action once its fields are present. The fused image
      takes the cutout's own size: the background is resized to it. */
  function FuseImage(mattingUrl: string, backgroundUrl: string, up: Upstream): (h: Handled)
    ensures |h.calls| >= 2 && h.calls[..2] == [Download(backgroundUrl), Download(mattingUrl)]
    ensures h.response.Failure? ==> h.response.status == 500
    ensures h.response.Fused? <==>
      && up.cutout == Reached(true) && up.background == Reached(true)
      && up.cutoutSize.Some? && up.pixelWorkOk && up.store.Stored?
    ensures h.response.Fused? ==> h.response.fusedUrl == up.store.publicUrl
    ensures up.cutout.Reached? && up.background.Reached? && !(up.cutout.ok && up.background.ok) ==>
      h.response == Failure(500, MsgFuseDownload)
    ensures up.cutout.Unreachable? || up.background.Unreachable? ==> h.response == Failure(500, MsgInternal)
    ensures up.cutout == Reached(true) && up.background == Reached(true) && !h.response.Fused? ==>
      h.response == Failure(500, MsgInternal)
    ensures forall c | c in h.calls && (c.ResizeBackground? || c.StoreFused?) ::
      up.cutoutSize.Some? && c.size == up.cutoutSize.value
    ensures h.response.Fused? ==>
      ResizeBackground(up.cutoutSize.value) in h.calls && StoreFused(up.cutoutSize.value) in h.calls
    ensures !(up.cutout == Reached(true) && up.background == Reached(true) && up.cutoutSize.Some?) ==>
      h.calls == [Download(backgroundUrl), Download(mattingUrl)]
    ensures up.cutout == Reached(true) && up.background == Reached(true) && up.cutoutSize.Some? ==>
      ResizeBackground(up.cutoutSize.value) in h.calls && (StoreFused(up.cutoutSize.value) in h.calls <==> up.pixelWorkOk)
    ensures forall c | c in h.calls :: !c.Generate? && !c.StoreBackground?
  {
    var downloads := [Download(backgroundUrl), Download(mattingUrl)];
    if up.background.Unreachable? || up.cutout.Unreachable? then
      Handled(Failure(500, MsgInternal), downloads)
    else if !up.background.ok || !up.cutout.ok then
      Handled(Failure(500, MsgFuseDownload), downloads)
    else if up.cutoutSize.None? then
      Handled(Failure(500, MsgInternal), downloads)
    else
      var size := up.cutoutSize.value;
      var calls := downloads + [ResizeBackground(size)];
      if !up.pixelWorkOk then
        Handled(Failure(500, MsgInternal), calls)
      else
        match up.store
        case StoreFailed => Handled(Failure(500, MsgInternal), calls + [StoreFused(size)])
        case Stored(url) => Handled(Fused(url), calls + [StoreFused(size)])
  }

  /** The handler. `body` is None when the body does not parse as JSON or is
      `null`; any other value that is not an object (an array, a number, a
      string, a boolean) destructures to a request with every field missing. */
  function Handle(body: Option<Request>, up: Upstream): (h: Handled)
    ensures body.None? ==> h == Handled(Failure(500, MsgInternal), [])
    ensures h.response.Failure? ==> h.response.status == 400 || h.response.status == 500
    ensures IsStatus(h.response, 400) <==> body.Some? && Rejected(body.value)
    ensures IsStatus(h.response, 400) ==> h.calls == []
    ensures body.Some? && body.value.action == Some(ActionGenerate) ==>
      if Rejected(body.value) then h == Handled(Failure(400, MsgMissingPrompt), [])
      else h == GenerateBackground(body.value.prompt.value, body.value.mattingUrl.value, up)
    ensures body.Some? && body.value.action == Some(ActionFuse) ==>
      if Rejected(body.value) then h == Handled(Failure(400, MsgMissingFuseUrls), [])
      else h == FuseImage(body.value.mattingUrl.value, body.value.backgroundUrl.value, up)
    ensures body.Some? && body.value.action != Some(ActionGenerate) && body.value.action != Some(ActionFuse) ==>
      h == Handled(Failure(400, MsgInvalidAction), [])
    ensures h.response.Backgrounds? ==>
      body.Some? && body.value.action == Some(ActionGenerate) && |h.response.urls| == 1
    ensures h.response.Fused? ==>
      body.Some? && body.value.action == Some(ActionFuse) && up.store == Stored(h.response.fusedUrl)
  {
    match body
    case None => Handled(Failure(500, MsgInternal), [])
    case Some(req) =>
      if req.action == Some(ActionGenerate) then
        if !Truthy(req.prompt) || !Truthy(req.mattingUrl) then Handled(Failure(400, MsgMissingPrompt), [])
        else GenerateBackground(req.prompt.value, req.mattingUrl.value, up)
      else if req.action == Some(ActionFuse) then
        if !Truthy(req.mattingUrl) || !Truthy(req.backgroundUrl) then Handled(Failure(400, MsgMissingFuseUrls), [])
        else FuseImage(req.mattingUrl.value, req.backgroundUrl.value, up)
      else Handled(Failure(400, MsgInvalidAction), [])
  }
}

=== FILE: matting.dfy ===
/** The background-removal route (`POST /api/matting`): the retry policy
    around the removal API and the handler's sequence of early returns.
    Every upstream (object store, removal API, image library) is an input
    that says how that call turns out. */
module MattingRoute {
  import opened Shared

  /** Default `retries` of the retry helper; the handler uses the default. */
  const DefaultRetries: nat := 3

  /** A copy larger than this on either side is shrunk before it is sent. */
  const MaxApiSide: nat := 1280

  const MsgNoFile := "未收到图片文件"
  const MsgOriginalUpload := "原图上传失败"
  const MsgRemovalPrefix := "抠图失败: "
  const MsgCompose := "抠图后图像处理失败，请检查图片格式或联系技术支持"
  const MsgMattedUpload := "抠图结果上传失败"
  const MsgInternal := "服务器内部错误"

  // ---------------------------------------------------------------------
  // Retry policy
  // ---------------------------------------------------------------------

  /** What one call to the removal API yields: a response, or a thrown network error. */
  datatype Attempt = Responded(status: int, statusText: string) | NetworkError(message: string)

  /** `response.ok`: a 2xx status. */
  predicate IsOk(status: int) {
    200 <= status <= 299
  }

  predicate IsClientError(status: int) {
    400 <= status <= 499
  }

  /** An attempt whose response is handed back to the caller at once, with no retry. */
  predicate Final(a: Attempt) {
    a.Responded? && (IsOk(a.status) || IsClientError(a.status))
  }

  /** Why the retry helper rejects: the last attempt's network error, rethrown,
      or the helper's own error once every attempt was retried (whose message
      no caller reads: the handler answers any rejection with the generic 500). */
  datatype FetchError = NetworkFailure(message: string) | AllAttemptsFailed

  /** What the retry helper resolves to (the returned response) or rejects with. */
  datatype FetchResult = Returned(status: int, statusText: string) | Threw(error: FetchError)

  /** Index of the first final attempt in `s`, or `|s|` if there is none. */
  function FirstFinal(s: seq<Attempt>): (k: nat)
    ensures k <= |s|
    ensures k < |s| ==> Final(s[k])
    ensures forall j :: 0 <= j < k ==> !Final(s[j])
  {
    if s == [] then 0
    else if Final(s[0]) then 0
    else 1 + FirstFinal(s[1..])
  }

  /** The retry helper. `attempts[i]` is what the removal API yields on the
      (i+1)-th call; `calls` counts the calls made and `sleeps` the delays
      waited. The first 2xx or 4xx response is returned; any other status,
      and a network error before the last attempt, is followed by a delay
      and a retry; a network error on the last attempt is rethrown at once;
      when every attempt was retried the helper throws. */
  method FetchWithRetry(attempts: seq<Attempt>, retries: nat) returns (r: FetchResult, calls: nat, sleeps: nat)
    requires retries <= |attempts|
    ensures calls <= retries
    ensures var k := FirstFinal(attempts[..retries]);
      && (r.Returned? <==> k < retries)
      && (r.Returned? ==>
            calls == k + 1 && sleeps == k &&
            r == Returned(attempts[k].status, attempts[k].statusText))
      && (r.Threw? ==> calls == retries)
    ensures r.Threw? && r.error.NetworkFailure? <==>
      r.Threw? && 0 < retries && attempts[retries - 1].NetworkError?
    ensures r.Threw? && r.error.NetworkFailure? ==>
      r.error.message == attempts[retries - 1].message && sleeps == retries - 1
    ensures r == Threw(AllAttemptsFailed) ==> sleeps == retries
    ensures retries == 0 ==> r == Threw(AllAttemptsFailed) && calls == 0
  {
    calls, sleeps := 0, 0;
    var i := 0;
    while i < retries
      invariant 0 <= i <= retries
      invariant calls == i && sleeps == i
      invariant forall j :: 0 <= j < i ==> !Final(attempts[j])
      invariant 0 < i == retries ==> attempts[i - 1].Responded?
    {
      calls := calls + 1;
      match attempts[i] {
        case Responded(status, statusText) =>
          if IsOk(status) || IsClientError(status) {
            r := Returned(status, statusText);
            return;
          }
        case NetworkError(message) =>
          if i == retries - 1 {
            r := Threw(NetworkFailure(message));
            return;
          }
      }
      sleeps := sleeps + 1;
      i := i + 1;
    }
    r := Threw(AllAttemptsFailed);
  }

  // ---------------------------------------------------------------------
  // The POST handler
  // ---------------------------------------------------------------------

  /** The uploaded file: its name and the size sharp reads from its bytes
      (None when the bytes are not an image sharp can read). */
  datatype ImageFile = ImageFile(name: string, size: Option<Size>)

  /** The request's multipart body: unreadable, or read with or without a `file` entry. */
  datatype Form = Unreadable | Form(file: Option<ImageFile>)

  /** What the removal API returned in a 2xx body: JSON with a base64 `image`, or not. */
  datatype RemovalBody = Cutout | NoImage

  /** How each upstream call of the handler turns out. */
  datatype Upstream = Upstream(
    original: Stored,          // upload of the original file
    removal: seq<Attempt>,     // each call to the removal API
    removalBody: RemovalBody,  // body of the 2xx response, if one is returned
    composeOk: bool,           // composing the cutout onto a transparent canvas
    matted: Stored)            // upload of the composed PNG

  /** Which bytes go to the removal API. */
  datatype ApiCopy = OriginalBytes | Downscaled

  datatype Response = Matted(mattingUrl: string, originalUrl: string) | Failure(status: int, message: string)

  /** The downscale threshold: a copy is shrunk only when a side exceeds 1280. */
  predicate NeedsDownscale(size: Size) {
    size.width > MaxApiSide || size.height > MaxApiSide
  }

  /** Within the handler's attempts, the removal API's answer that is kept is a 2xx response. */
  predicate RemovalSucceeded(removal: seq<Attempt>)
    requires DefaultRetries <= |removal|
  {
    var k := FirstFinal(removal[..DefaultRetries]);
    k < DefaultRetries && IsOk(removal[k].status)
  }

  /** The handler. Besides the response it reports how many times the removal
      API was called, which copy was sent to it, and the size of the canvas
      the cutout was composed onto. */
  method Post(form: Form, up: Upstream) returns (resp: Response, removalCalls: nat, sent: Option<ApiCopy>, canvas: Option<Size>)
    requires DefaultRetries <= |up.removal|
    ensures resp.Failure? ==> resp.status == 400 || resp.status == 500
    ensures resp.Failure? && resp.status == 400 <==> form == Form(None)
    ensures resp.Failure? && resp.status == 400 ==> resp.message == MsgNoFile && removalCalls == 0
    ensures removalCalls <= DefaultRetries
    ensures removalCalls > 0 ==> up.original.Stored? && sent.Some?
    ensures form.Unreadable? ==> resp == Failure(500, MsgInternal) && removalCalls == 0
    ensures form.Form? && form.file.Some? && up.original.StoreFailed? ==>
      resp == Failure(500, MsgOriginalUpload) && removalCalls == 0
    ensures form.Form? && form.file.Some? && up.original.Stored? && form.file.value.size.None? ==>
      resp == Failure(500, MsgInternal) && removalCalls == 0
    ensures sent.Some? <==> form.Form? && form.file.Some? && up.original.Stored? && form.file.value.size.Some?
    ensures sent.Some? ==> (sent.value == Downscaled <==> NeedsDownscale(form.file.value.size.value))
    ensures sent.Some? ==> 0 < removalCalls
    ensures sent.Some? && FirstFinal(up.removal[..DefaultRetries]) < DefaultRetries ==>
      var k := FirstFinal(up.removal[..DefaultRetries]);
      removalCalls == k + 1 &&
      (!IsOk(up.removal[k].status) ==>
         resp == Failure(500, MsgRemovalPrefix + up.removal[k].statusText))
    ensures sent.Some? && FirstFinal(up.removal[..DefaultRetries]) == DefaultRetries ==>
      resp == Failure(500, MsgInternal) && removalCalls == DefaultRetries
    ensures sent.Some? && RemovalSucceeded(up.removal) && up.removalBody == NoImage ==>
      resp == Failure(500, MsgInternal)
    ensures sent.Some? && RemovalSucceeded(up.removal) && up.removalBody == Cutout && !up.composeOk ==>
      resp == Failure(500, MsgCompose)
    ensures sent.Some? && RemovalSucceeded(up.removal) && up.removalBody == Cutout && up.composeOk ==>
      resp == (if up.matted.Stored? then Matted(up.matted.publicUrl, up.original.publicUrl)
               else Failure(500, MsgMattedUpload))
    ensures resp.Matted? ==>
      && sent.Some? && RemovalSucceeded(up.removal)
      && resp.originalUrl == up.original.publicUrl
      && up.matted.Stored? && resp.mattingUrl == up.matted.publicUrl
      && IsOk(up.removal[removalCalls - 1].status)
      && up.removalBody == Cutout && up.composeOk
      && canvas == form.file.value.size
    ensures canvas.Some? ==> sent.Some? && canvas == form.file.value.size
  {
    removalCalls, sent, canvas := 0, None, None;
    if form.Unreadable? {
      resp := Failure(500, MsgInternal);
      return;
    }
    if form.file.None? {
      resp := Failure(400, MsgNoFile);
      return;
    }
    var file := form.file.value;
    if up.original.StoreFailed? {
      resp := Failure(500, MsgOriginalUpload);
      return;
    }
    var originalUrl := up.original.publicUrl;
    if file.size.None? {
      resp := Failure(500, MsgInternal);
      return;
    }
    var size := file.size.value;
    sent := Some(if NeedsDownscale(size) then Downscaled else OriginalBytes);
    var r, calls, _ := FetchWithRetry(up.removal, DefaultRetries);
    removalCalls := calls;
    if r.Threw? {
      resp := Failure(500, MsgInternal);
      return;
    }
    if !IsOk(r.status) {
      resp := Failure(500, MsgRemovalPrefix + r.statusText);
      return;
    }
    if up.removalBody.NoImage? {
      resp := Failure(500, MsgInternal);
      return;
    }
    canvas := Some(size);
    if !up.composeOk {
      resp := Failure(500, MsgCompose);
      return;
    }
    if up.matted.StoreFailed? {
      resp := Failure(500, MsgMattedUpload);
      return;
    }
    resp := Matted(up.matted.publicUrl, originalUrl);
  }
}

=== FILE: shared.dfy ===
/** Values shared by the page and the two API routes: optional JSON fields,
    JavaScript truthiness of strings, image sizes and storage-upload outcomes. */
module Shared {

  /** A JSON field that may be missing (undefined or null). */
  datatype Option<+T> = None | Some(value: T)

  /** `!!s` in JavaScript for a field that is a string or missing:
      a missing field and the empty string are both falsy. */
  predicate Truthy(s: Option<string>) {
    s.Some? && s.value != ""
  }

  /** `s || fallback` for a field that is a string or missing. */
  function OrElse(s: Option<string>, fallback: string): string {
    if Truthy(s) then s.value else fallback
  }

  /** Width and height of an image, as sharp's `metadata()` reports them. */
  datatype Size = Size(width: nat, height: nat)

  /** Outcome of uploading a buffer to the object store and asking for its public URL. */
  datatype Stored = Stored(publicUrl: string) | StoreFailed
}

=== FILE: wizard.dfy ===
/** The four-step wizard of the home page: upload a photo (1), describe a
    background (2), pick a generated background (3), see and download the
    fused result (4). Each asynchronous handler is split at its `await` into
    a start (the guard and the setters before the request) and a finish (the
    setters after the reply). The transitions are functions on `UiState`;
    the `HomePage` class holds the component's state fields and its methods
    are proved to perform exactly those transitions. */
module Wizard {
  import opened Shared
  import AiFuseRoute

  const UploadFailedDefault := "抠图失败，请重试"
  const GenerateFailedDefault := "背景生成失败，请重试"
  const FuseFailedDefault := "融合失败，请重试"

  /** A route's JSON body as the page reads it; a missing field is None. */
  datatype Body = Body(
    error: Option<string>,
    mattingUrl: Option<string>,
    originalUrl: Option<string>,
    backgrounds: Option<seq<string>>,
    fusedUrl: Option<string>)

  /** What `fetch` followed by `res.json()` yields: a body together with
      `res.ok`, or an error thrown by either call. */
  datatype Reply = Answered(ok: bool, body: Body) | Threw(message: string)

  predicate Succeeded(reply: Reply) {
    reply.Answered? && reply.ok
  }

  /** The message a failed request leaves in `error`: the thrown error's, or
      the body's `error` field, or the handler's default text. */
  function FailureMessage(reply: Reply, fallback: string): string {
    match reply
    case Threw(message) => message
    case Answered(_, body) => OrElse(body.error, fallback)
  }

  /** The component's state fields. A URL field the page set from a missing
      JSON field holds "" (both are falsy to every guard). */
  datatype UiState = UiState(
    step: int,
    user: Option<string>,
    uploading: bool,
    originalUrl: string,
    mattingUrl: string,
    bgPrompt: string,
    bgCandidates: seq<string>,
    bgLoading: bool,
    selectedBg: string,
    fusedUrl: string,
    fusing: bool,
    error: string)

  /** The state when the page mounts. */
  const Initial := UiState(1, None, false, "", "", "", [], false, "", "", false, "")

  predicate StepInRange(s: UiState) {
    1 <= s.step <= 4
  }

  // ---------------------------------------------------------------------
  // handleUpload
  // ---------------------------------------------------------------------

  /** Before the request: `error` is cleared; with a file, `uploading` is set. */
  function UploadStarted(s: UiState, hasFile: bool): (r: UiState)
    ensures r.error == "" && r.uploading == (hasFile || s.uploading)
    ensures !hasFile ==> r == s.(error := "")
    ensures r == s.(error := "", uploading := r.uploading)
  {
    if hasFile then s.(error := "", uploading := true) else s.(error := "")
  }

  /** After the reply: success stores the two URLs and moves to step 2,
      failure records the message and returns to step 1; `uploading` is
      cleared either way. */
  function UploadFinished(s: UiState, reply: Reply): (r: UiState)
    ensures !r.uploading && StepInRange(r)
    ensures Succeeded(reply) ==>
      && r.step == 2 && r.error == s.error
      && r.mattingUrl == OrElse(reply.body.mattingUrl, "")
      && r.originalUrl == OrElse(reply.body.originalUrl, "")
    ensures !Succeeded(reply) ==>
      && r.step == 1 && r.error == FailureMessage(reply, UploadFailedDefault)
      && r.mattingUrl == s.mattingUrl && r.originalUrl == s.originalUrl
    ensures r == s.(step := r.step, error := r.error, mattingUrl := r.mattingUrl,
                    originalUrl := r.originalUrl, uploading := false)
  {
    if Succeeded(reply) then
      s.(mattingUrl := OrElse(reply.body.mattingUrl, ""),
         originalUrl := OrElse(reply.body.originalUrl, ""),
         step := 2, uploading := false)
    else
      s.(error := FailureMessage(reply, UploadFailedDefault), step := 1, uploading := false)
  }

  // ---------------------------------------------------------------------
  // handleGenerateBg
  // ---------------------------------------------------------------------

  /** The guard of the generation handler. */
  predicate CanGenerate(s: UiState) {
    (s.step == 2 || s.step == 3) && s.mattingUrl != "" && s.bgPrompt != "" && !s.bgLoading
  }

  /** Before the request: unless the guard holds nothing changes; otherwise
      error, candidates and selection are cleared, `bgLoading` is set and a
      step 3 falls back to step 2. */
  function GenerateBgStarted(s: UiState): (r: UiState)
    ensures !CanGenerate(s) ==> r == s
    ensures CanGenerate(s) ==>
      r == s.(step := 2, error := "", bgLoading := true, bgCandidates := [], selectedBg := "")
    ensures StepInRange(s) ==> StepInRange(r)
  {
    if !CanGenerate(s) then s
    else s.(step := 2, error := "", bgLoading := true, bgCandidates := [], selectedBg := "")
  }

  /** The body the generation handler posts, if its guard lets it post one;
      such a body always passes the route's parameter check. */
  function GenerateBgRequest(s: UiState): (r: Option<AiFuseRoute.Request>)
    ensures r.Some? <==> CanGenerate(s)
    ensures r.Some? ==>
      && r.value.action == Some(AiFuseRoute.ActionGenerate)
      && r.value.prompt == Some(s.bgPrompt) && r.value.mattingUrl == Some(s.mattingUrl)
      && !AiFuseRoute.Rejected(r.value)
  {
    if CanGenerate(s) then
      Some(AiFuseRoute.Request(Some(AiFuseRoute.ActionGenerate), Some(s.bgPrompt), Some(s.mattingUrl), None))
    else None
  }

  /** After the reply: success stores the returned list (or [] if absent) and
      moves to step 3, failure records the message and stays on step 2;
      `bgLoading` is cleared either way. */
  function GenerateBgFinished(s: UiState, reply: Reply): (r: UiState)
    ensures !r.bgLoading && StepInRange(r)
    ensures Succeeded(reply) ==>
      && r.step == 3 && r.error == s.error
      && r.bgCandidates == (if reply.body.backgrounds.Some? then reply.body.backgrounds.value else [])
    ensures !Succeeded(reply) ==>
      r.step == 2 && r.error == FailureMessage(reply, GenerateFailedDefault) && r.bgCandidates == s.bgCandidates
    ensures r == s.(step := r.step, error := r.error, bgCandidates := r.bgCandidates, bgLoading := false)
  {
    if Succeeded(reply) then
      var candidates := match reply.body.backgrounds
        case Some(urls) => urls
        case None => [];
      s.(bgCandidates := candidates, step := 3, bgLoading := false)
    else
      s.(error := FailureMessage(reply, GenerateFailedDefault), step := 2, bgLoading := false)
  }

  // ---------------------------------------------------------------------
  // handleFuse
  // ---------------------------------------------------------------------

  /** The guard of the fusion handler. */
  predicate CanFuse(s: UiState) {
    s.step == 3 && s.selectedBg != "" && !s.fusing
  }

  /** Before the request: unless the guard holds nothing changes; otherwise
      `error` is cleared and `fusing` set. */
  function FuseStarted(s: UiState): (r: UiState)
    ensures !CanFuse(s) ==> r == s
    ensures CanFuse(s) ==> r == s.(error := "", fusing := true) && r.step == 3
  {
    if CanFuse(s) then s.(error := "", fusing := true) else s
  }

  /** The body the fusion handler posts, if its guard lets it post one. In a
      settled state it always passes the route's parameter check. */
  function FuseRequest(s: UiState): (r: Option<AiFuseRoute.Request>)
    ensures r.Some? <==> CanFuse(s)
    ensures r.Some? ==>
      && r.value.action == Some(AiFuseRoute.ActionFuse)
      && r.value.mattingUrl == Some(s.mattingUrl) && r.value.backgroundUrl == Some(s.selectedBg)
    ensures r.Some? && Settled(s) ==> !AiFuseRoute.Rejected(r.value)
  {
    if CanFuse(s) then
      Some(AiFuseRoute.Request(Some(AiFuseRoute.ActionFuse), None, Some(s.mattingUrl), Some(s.selectedBg)))
    else None
  }

  /** After the reply: success stores the fused URL and moves to step 4,
      failure records the message and stays on step 3; `fusing` is cleared
      either way. */
  function FuseFinished(s: UiState, reply: Reply): (r: UiState)
    ensures !r.fusing && StepInRange(r)
    ensures Succeeded(reply) ==>
      r.step == 4 && r.error == s.error && r.fusedUrl == OrElse(reply.body.fusedUrl, "")
    ensures !Succeeded(reply) ==>
      r.step == 3 && r.error == FailureMessage(reply, FuseFailedDefault) && r.fusedUrl == s.fusedUrl
    ensures r == s.(step := r.step, error := r.error, fusedUrl := r.fusedUrl, fusing := false)
  {
    if Succeeded(reply) then
      s.(fusedUrl := OrElse(reply.body.fusedUrl, ""), step := 4, fusing := false)
    else
      s.(error := FailureMessage(reply, FuseFailedDefault), step := 3, fusing := false)
  }

  // ---------------------------------------------------------------------
  // handleDownload, handleRestart and the two input handlers
  // ---------------------------------------------------------------------

  /** The link the download handler clicks; none when there is no fused URL. */
  function DownloadLink(s: UiState): (r: Option<string>)
    ensures r.None? <==> s.fusedUrl == ""
    ensures r.Some? ==> r.value == s.fusedUrl
  {
    if s.fusedUrl == "" then None else Some(s.fusedUrl)
  }

  /** Back to step 1 with every URL, the prompt, the candidates and the error
      emptied; the user and the busy flags are kept. */
  function Restarted(s: UiState): (r: UiState)
    ensures r.step == 1
    ensures r.originalUrl == "" && r.mattingUrl == "" && r.bgPrompt == "" && r.bgCandidates == []
    ensures r.selectedBg == "" && r.fusedUrl == "" && r.error == ""
    ensures r.user == s.user && r.uploading == s.uploading && r.bgLoading == s.bgLoading && r.fusing == s.fusing
  {
    s.(step := 1, originalUrl := "", mattingUrl := "", bgPrompt := "",
       bgCandidates := [], selectedBg := "", fusedUrl := "", error := "")
  }

  /** The prompt text area's change handler. */
  function PromptEdited(s: UiState, text: string): UiState {
    s.(bgPrompt := text)
  }

  /** A click on a background candidate. */
  function BackgroundSelected(s: UiState, url: string): UiState {
    s.(selectedBg := url)
  }

  // ---------------------------------------------------------------------
  // Sessions in which each handler runs to completion before the next
  // ---------------------------------------------------------------------

  /** One user action with the reply its request receives. */
  datatype Action =
    | PickFile(hasFile: bool, reply: Reply)
    | TypePrompt(text: string)
    | ClickGenerate(reply: Reply)
    | PickBackground(url: string)
    | ClickFuse(reply: Reply)
    | ClickDownload
    | ClickRestart

  /** The routes keep their contract: a successful upload names a cutout URL
      and a successful fusion names a fused URL. */
  predicate WellAnswered(a: Action) {
    match a
    case PickFile(_, reply) => Succeeded(reply) ==> Truthy(reply.body.mattingUrl)
    case ClickFuse(reply) => Succeeded(reply) ==> Truthy(reply.body.fusedUrl)
    case _ => true
  }

  /** A state between handlers: no request in flight, a cutout from step 2 on,
      and a fused image at step 4. */
  predicate Settled(s: UiState) {
    && StepInRange(s)
    && !s.uploading && !s.bgLoading && !s.fusing
    && (s.step >= 2 ==> s.mattingUrl != "")
    && (s.step == 4 ==> s.fusedUrl != "")
  }

  /** A handler run from start to finish. */
  function Perform(s: UiState, a: Action): (r: UiState)
    ensures Settled(s) && WellAnswered(a) ==> Settled(r)
  {
    match a
    case PickFile(hasFile, reply) =>
      var started := UploadStarted(s, hasFile);
      if hasFile then UploadFinished(started, reply) else started
    case TypePrompt(text) => PromptEdited(s, text)
    case ClickGenerate(reply) =>
      if CanGenerate(s) then GenerateBgFinished(GenerateBgStarted(s), reply) else s
    case PickBackground(url) => BackgroundSelected(s, url)
    case ClickFuse(reply) =>
      if CanFuse(s) then FuseFinished(FuseStarted(s), reply) else s
    case ClickDownload => s
    case ClickRestart => Restarted(s)
  }

  function Play(s: UiState, actions: seq<Action>): UiState
    decreases |actions|
  {
    if actions == [] then s else Play(Perform(s, actions[0]), actions[1..])
  }

  /** A session of whole handler runs, against routes that keep their
      contract, stays settled: in particular step is always 1 to 4, every
      fusion request passes the route's check and step 4 always has a link
      to download. */
  lemma {:induction false} SessionStaysSettled(s: UiState, actions: seq<Action>)
    requires Settled(s)
    requires forall i :: 0 <= i < |actions| ==> WellAnswered(actions[i])
    ensures Settled(Play(s, actions))
    ensures StepInRange(Play(s, actions))
    ensures Play(s, actions).step == 4 ==> DownloadLink(Play(s, actions)).Some?
    ensures FuseRequest(Play(s, actions)).Some? ==> !AiFuseRoute.Rejected(FuseRequest(Play(s, actions)).value)
    decreases |actions|
  {
    if actions != [] {
      SessionStaysSettled(Perform(s, actions[0]), actions[1..]);
    }
  }

  /** The page as it mounts is settled. */
  lemma InitialSettled()
    ensures Settled(Initial) && Initial.step == 1
  {
  }

  // ---------------------------------------------------------------------
  // The component
  // ---------------------------------------------------------------------

  class HomePage {
    var step: int
    var user: Option<string>
    var uploading: bool
    var originalUrl: string
    var mattingUrl: string
    var bgPrompt: string
    var bgCandidates: seq<string>
    var bgLoading: bool
    var selectedBg: string
    var fusedUrl: string
    var fusing: bool
    var error: string

    /** `step` only ever holds 1, 2, 3 or 4. */
    ghost predicate Valid()
      reads this
    {
      1 <= step <= 4
    }

    function State(): UiState
      reads this
    {
      UiState(step, user, uploading, originalUrl, mattingUrl, bgPrompt,
              bgCandidates, bgLoading, selectedBg, fusedUrl, fusing, error)
    }

    constructor ()
      ensures Valid() && State() == Initial
    {
      step := 1;
      user := None;
      uploading := false;
      originalUrl := "";
      mattingUrl := "";
      bgPrompt := "";
      bgCandidates := [];
      bgLoading := false;
      selectedBg := "";
      fusedUrl := "";
      fusing := false;
      error := "";
    }

    method StartUpload(hasFile: bool)
      requires Valid()
      modifies this
      ensures Valid() && State() == UploadStarted(old(State()), hasFile)
    {
      error := "";
      if !hasFile {
        return;
      }
      uploading := true;
    }

    method FinishUpload(reply: Reply)
      requires Valid()
      modifies this
      ensures Valid() && State() == UploadFinished(old(State()), reply)
    {
      if Succeeded(reply) {
        mattingUrl := OrElse(reply.body.mattingUrl, "");
        originalUrl := OrElse(reply.body.originalUrl, "");
        step := 2;
      } else {
        error := FailureMessage(reply, UploadFailedDefault);
        step := 1;
      }
      uploading := false;
    }

    method StartGenerateBg() returns (request: Option<AiFuseRoute.Request>)
      requires Valid()
      modifies this
      ensures Valid() && State() == GenerateBgStarted(old(State()))
      ensures request == GenerateBgRequest(old(State()))
    {
      if (step != 2 && step != 3) || mattingUrl == "" || bgPrompt == "" || bgLoading {
        return None;
      }
      request := Some(AiFuseRoute.Request(Some(AiFuseRoute.ActionGenerate), Some(bgPrompt), Some(mattingUrl), None));
      if step == 3 {
        step := 2;
      }
      error := "";
      bgLoading := true;
      bgCandidates := [];
      selectedBg := "";
    }

    method FinishGenerateBg(reply: Reply)
      requires Valid()
      modifies this
      ensures Valid() && State() == GenerateBgFinished(old(State()), reply)
    {
      if Succeeded(reply) {
        bgCandidates := match reply.body.backgrounds
          case Some(urls) => urls
          case None => [];
        step := 3;
      } else {
        error := FailureMessage(reply, GenerateFailedDefault);
        step := 2;
      }
      bgLoading := false;
    }

    method StartFuse() returns (request: Option<AiFuseRoute.Request>)
      requires Valid()
      modifies this
      ensures Valid() && State() == FuseStarted(old(State()))
      ensures request == FuseRequest(old(State()))
    {
      if step != 3 || selectedBg == "" || fusing {
        return None;
      }
      request := Some(AiFuseRoute.Request(Some(AiFuseRoute.ActionFuse), None, Some(mattingUrl), Some(selectedBg)));
      error := "";
      fusing := true;
    }

    method FinishFuse(reply: Reply)
      requires Valid()
      modifies this
      ensures Valid() && State() == FuseFinished(old(State()), reply)
    {
      if Succeeded(reply) {
        fusedUrl := OrElse(reply.body.fusedUrl, "");
        step := 4;
      } else {
        error := FailureMessage(reply, FuseFailedDefault);
        step := 3;
      }
      fusing := false;
    }

    /** Only the guard of the download handler: the link it would click. */
    method Download() returns (href: Option<string>)
      ensures href == DownloadLink(State())
    {
      if fusedUrl == "" {
        return None;
      }
      href := Some(fusedUrl);
    }

    method Restart()
      requires Valid()
      modifies this
      ensures Valid() && State() == Restarted(old(State()))
    {
      step := 1;
      originalUrl := "";
      mattingUrl := "";
      bgPrompt := "";
      bgCandidates := [];
      selectedBg := "";
      fusedUrl := "";
      error := "";
    }

    method EditPrompt(text: string)
      requires Valid()
      modifies this
      ensures Valid() && State() == PromptEdited(old(State()), text)
    {
      bgPrompt := text;
    }

    method SelectBackground(url: string)
      requires Valid()
      modifies this
      ensures Valid() && State() == BackgroundSelected(old(State()), url)
    {
      selectedBg := url;
    }
  }
}
